=== FILE: README.md ===
# Wythoff's game and the fuzzy heating controller, in Dafny

This project models the two pieces of self-contained logic in the NAI
exercises repository and proves properties of them.

**Wythoff's game** (`zjazd-1/wythoff.py`). The game has two heaps, 5 and 7
by default. A move takes a positive number of objects from one heap, or the
same positive number from both heaps. Moves travel as `"a,b"` strings. They
are built with f-strings and read back with `split(",")` and `int()`. Players
are numbered 1 and 2. `make_move` subtracts the pair and passes the turn with
`3 - p`. The game is over when both heaps are empty, and the player who moved
last wins. The human's turn in the event loop is modelled too: clicking a
matchstick toggles its mark, and the "Zabierz" button turns the mark counts
into a move.

**The heating controller** (`zjazd-2/fuzzy_heating.py`). It has three inputs:
room temperature, outside temperature and humidity. Its single output is the
heating power. Each variable has an integer universe and three triangular
labels. Nine rules conclude a power label: seven join two input labels with
`&`, and two read a single input label. The wrapper
`calculate_heating` returns 0.0 whenever the fuzzy library fails. The
computed power is then reported in three bands.

Modules, one per file:

- `Wrappers` (`wrappers.dfy`): `Option`.
- `PyText` (`pytext.dfy`): Python's `str()` of a natural, `str.split` on one character, and `int()` on digit strings.
- `Wythoff` (`wythoff.dfy`): the game state and its operations.
- `Selection` (`selection.dfy`): marks on matchsticks and the take button.
- `Membership` (`membership.dfy`): triangular membership.
- `HeatingConfig` (`heating_config.dfy`): universes, labels, the rule base, and well-formedness.
- `Inference` (`inference.dfy`): rule firing, aggregation, the centroid, and `calculate_heating`.
- `Interpretation` (`interpretation.dfy`): the reporting bands and the bar colours.

Floats are modelled as `real`. Game heaps are modelled as `int`, because
`make_move` subtracts without any check.

Facts about the code that shape the model:

- `trimf` gives 1 at the peak, and that includes the shared endpoint of a
  shoulder such as `zimno [10,10,18]` at 10. `Membership.Degree` follows
  `trimf`.
- The code validates nothing itself, and `calculate_heating` turns every
  exception into 0.0. Well-formedness is a predicate proved of the fixed
  configuration. A missing input or an output of zero area makes
  `Inference.Compute` return `Raised`.
- A reading outside an input's universe is clipped to the nearer end of that
  universe before its labels are evaluated, as the simulation object does by
  default. `Inference.ClipToUniverse` models this.
- The rules use only `&` and single terms, so `Antecedent` has the two cases
  `Is` and `And`.

## Model

| member | source | states |
|---|---|---|
| `Wythoff.NewGame` | zjazd-1/wythoff.py:38-43 | A new game has heaps 5 and 7 unless heaps are given. Player 1 moves first, nothing is selected, there is no last move, and the players are kept. |
| `Wythoff.DefaultGameStart` | zjazd-1/wythoff.py:38-54 | The default position (5, 7) is valid and unfinished and offers 17 legal moves. |
| `PyText.FormatNat` | zjazd-1/wythoff.py:49-53 | `str(n)` is a non-empty string of digits with no leading zero, except for `"0"` itself. |
| `PyText.ParseNat` | zjazd-1/wythoff.py:58 | `int(s)` succeeds exactly when `s` is a non-empty string of digits. |
| `PyText.ParseFormatNat` | zjazd-1/wythoff.py:49-58 | `int(str(n)) == n` for every natural `n`: reading a number back gives the number that was written. |
| `PyText.FormatNatInjective` | zjazd-1/wythoff.py:49-53 | Two different naturals never print as the same text. |
| `PyText.Split` | zjazd-1/wythoff.py:58 | `split(sep)` returns at least one piece. No piece contains the separator, and joining the pieces with the separator gives back the original string. |
| `PyText.SplitPair` | zjazd-1/wythoff.py:58 | Splitting `x + "," + y`, where neither half has a comma, gives exactly `[x, y]`. |
| `Wythoff.FormatMove` | zjazd-1/wythoff.py:48-53 | The text `f"{a},{b}"` splits at its one comma into exactly the decimal forms of `a` and `b`. |
| `Wythoff.MoveList` | zjazd-1/wythoff.py:47-54 | The enumeration has `h0 + h1 + min(h0, h1)` pairs for non-negative heaps, and every pair is legal by Wythoff's rule. |
| `Wythoff.ParseFormatMove` | zjazd-1/wythoff.py:49-58 | Parsing an `"a,b"` string that `possible_moves` formatted gives back exactly the pair `(a, b)`. |
| `Wythoff.FormatMoveInjective` | zjazd-1/wythoff.py:49-53 | Two moves have the same text form exactly when they are the same move. |
| `Wythoff.MoveListExact` | zjazd-1/wythoff.py:45-54 | The enumerated pairs are exactly the moves Wythoff's rule allows, and no pair appears twice. |
| `Wythoff.PossibleMovesExact` | zjazd-1/wythoff.py:45-54 | `possible_moves` holds `h0 + h1 + min(h0, h1)` strings. A move's string is in the list exactly when the move is legal, and no string is repeated. |
| `Wythoff.PossibleMovesParse` | zjazd-1/wythoff.py:45-58 | Every listed string parses, and it parses to a legal move whose text form is that same string. |
| `Wythoff.PossibleMoves` | zjazd-1/wythoff.py:45-54 | The list has one string per enumerated pair, and each string parses back to the pair at its position. |
| `Wythoff.ParseMove` | zjazd-1/wythoff.py:58 | A string is accepted exactly when splitting it at commas gives two pieces that both read as naturals, and then the move is the pair of their values. Any other string raises. |
| `Wythoff.MakeMove` | zjazd-1/wythoff.py:56-63 | `make_move` fails exactly on strings that do not parse. Otherwise it keeps the players, subtracts `a` from the first heap and `b` from the second, passes the turn to the other player, clears both selections and records the string as the last move. |
| `Wythoff.PossibleMoveApplies` | zjazd-1/wythoff.py:56-63 | A listed move always applies. Both heaps stay non-negative and the total strictly falls. Player 1 and player 2 swap. The selections are cleared, the move is recorded as the last move, and the players are unchanged. |
| `Wythoff.Win` | zjazd-1/wythoff.py:65-67 | In a valid position the game is won exactly when no objects remain. |
| `Wythoff.IsOver` | zjazd-1/wythoff.py:69-71 | In a valid position the game is over exactly when no move can be enumerated. |
| `Wythoff.Winner` | zjazd-1/wythoff.py:114-115 | In a valid position the announced winner is player 1 or 2, and never the player to move. |
| `Wythoff.Scoring` | zjazd-1/wythoff.py:65-75 | The score is 100 exactly when both heaps are empty, and 0 exactly when they are not. |
| `Wythoff.ScoringCreditsLoser` | zjazd-1/wythoff.py:65-75 | As written, a finished position is worth +100 to the player to move and -100 to the player the end screen names as winner. |
| `Wythoff.WinningMoveScoredAsLoss` | zjazd-1/wythoff.py:45-75 | With heaps 1 and 1 and the computer to move, `"1,1"` is listed and ends the game with the computer as the announced winner, yet the position it leads to is worth -100 to the computer. |
| `Wythoff.WinnerScoring` | zjazd-1/wythoff.py:73-75 | The corrected score is -100 exactly when both heaps are empty, and 0 exactly when they are not. |
| `Wythoff.WinnerScoringCreditsWinner` | zjazd-1/wythoff.py:65-75 | With the corrected score, a finished position is worth +100 to the announced winner and -100 to the player to move. |
| `Wythoff.NoMovesIffOver` | zjazd-1/wythoff.py:45-71 | In a valid position, the move list is empty exactly when the game is over. So every unfinished game has a legal move. |
| `Wythoff.LastMoverWins` | zjazd-1/wythoff.py:114-115 | If a listed move ends the game, then `3 - current_player` afterwards is the player who made that move. |
| `Wythoff.PlayOut` | zjazd-1/wythoff.py:198-200 | Playing listed moves chosen by any strategy always terminates, because the heap total is a decreasing measure. It always ends in a finished, valid game. |
| `Wythoff.ReplayLength` | zjazd-1/wythoff.py:56-61 | A run of legal moves from a valid position has at most `h0 + h1` moves, and every position along it stays valid. |
| `Selection.Toggle` | zjazd-1/wythoff.py:166-169 | A click marks an unmarked matchstick or unmarks a marked one. All other marks stay as they were. |
| `Selection.ClickMatch` | zjazd-1/wythoff.py:163-180 | A click on matchstick `i` of a heap with more than `i` matchsticks toggles that mark and changes nothing else. Any other click changes nothing. Marks stay on matchsticks that exist. |
| `Selection.MarkCountBounded` | zjazd-1/wythoff.py:163-186 | When every mark is on an existing matchstick, no heap has more marks than matchsticks. |
| `Selection.BuildMove` | zjazd-1/wythoff.py:184-193 | A move is built exactly when the pair of mark counts is legal by Wythoff's rule, and its string parses back to that pair. |
| `Selection.HumanTake` | zjazd-1/wythoff.py:184-195 | The players are kept. If the game changes, the mark counts formed a legal move, the turn has passed, and both selections are cleared. |
| `Selection.BuildMoveListed` | zjazd-1/wythoff.py:184-194 | Any move built from the mark counts is in `possible_moves`, so the membership test never rejects it. |
| `Selection.HumanTakeExact` | zjazd-1/wythoff.py:184-195 | The take button plays the move given by the mark counts exactly when Wythoff's rule allows it. In every other case the game is unchanged. |
| `Selection.UnequalCountsRejected` | zjazd-1/wythoff.py:190-193 | If both heaps have marks and the counts differ, no move is made. |
| `Membership.Degree` | zjazd-2/fuzzy_heating.py:67-92 | The degree always lies in `[0, 1]` and is 1 at the peak, including a shoulder's shared endpoint. For an ordered triple it is 0 outside `[a, c]`, and it is positive only at the peak or strictly inside `(a, c)`. |
| `Membership.RisingEdgeMonotone` | zjazd-2/fuzzy_heating.py:67-68 | On `[a, b]` the degree never decreases. |
| `Membership.FallingEdgeMonotone` | zjazd-2/fuzzy_heating.py:67-68 | On `[b, c]` the degree never increases. |
| `Membership.PositiveInsideSupport` | zjazd-2/fuzzy_heating.py:67-68 | Strictly inside `(a, c)` the degree is positive. |
| `HeatingConfig.Arange` | zjazd-2/fuzzy_heating.py:45-62 | `np.arange(start, stop, 1)` has `stop - start` samples when `start < stop`, and none otherwise. |
| `HeatingConfig.ArangeAscending` | zjazd-2/fuzzy_heating.py:45-62 | The samples are strictly ascending. |
| `HeatingConfig.ArangeMembers` | zjazd-2/fuzzy_heating.py:45-62 | `np.arange(start, stop, 1)` holds exactly the integers `start <= x < stop`. |
| `HeatingConfig.UniverseSizes` | zjazd-2/fuzzy_heating.py:43-62 | The universes have 21, 36, 81 and 101 points, running over [10,30], [-15,20], [20,100] and [0,100]. |
| `HeatingConfig.PeaksAsCommented` | zjazd-2/fuzzy_heating.py:70-92 | Each of the twelve labels has degree 1 at the peak its comment names, for example `komfort` at 21 and `średnia` at 50. |
| `HeatingConfig.TempRoomWellFormed` | zjazd-2/fuzzy_heating.py:72-74 | The room universe ascends, and each room triple is ordered and inside [10, 30]. |
| `HeatingConfig.TempOutsideWellFormed` | zjazd-2/fuzzy_heating.py:78-80 | The outside universe ascends, and each outside triple is ordered and inside [-15, 20]. |
| `HeatingConfig.HumidityWellFormed` | zjazd-2/fuzzy_heating.py:84-86 | The humidity universe ascends, and each humidity triple is ordered and inside [20, 100]. |
| `HeatingConfig.HeatingPowerWellFormed` | zjazd-2/fuzzy_heating.py:90-92 | The power universe ascends, and each power triple is ordered and inside [0, 100]. |
| `HeatingConfig.InputsWellFormed` | zjazd-2/fuzzy_heating.py:45-86 | Each of the three input variables is filed under its own name and is well formed. |
| `HeatingConfig.RulesWellFormed` | zjazd-2/fuzzy_heating.py:101-125 | Every rule reads only labels that exist on input variables. It concludes `niska`, `średnia` or `wysoka` on `heating_power`. |
| `HeatingConfig.HeatingControlWellFormed` | zjazd-2/fuzzy_heating.py:101-136 | The system is consistent. It has exactly nine rules, and each one concludes one of the three power labels. |
| `HeatingConfig.WarmLabelSpellings` | zjazd-2/fuzzy_heating.py:74-80 | `cieplo` exists only on the room variable and `ciepło` only on the outside variable. The rules use each spelling where it exists. |
| `Inference.Strength` | zjazd-2/fuzzy_heating.py:101-125 | A rule's firing strength always lies in `[0, 1]`. |
| `Inference.ClipToUniverse` | zjazd-2/fuzzy_heating.py:158-161 | A reading inside the universe is used as is. A reading below or above it becomes the first or last sample. |
| `Inference.ColdRoomBelowUniverse` | zjazd-2/fuzzy_heating.py:158-161 | At room 5, below the universe, the room counts as fully `zimno`, and rule 2 fires at 1/2 with outside 0. |
| `Inference.AndIsMinimum` | zjazd-2/fuzzy_heating.py:101-116 | An `&` rule fires no stronger than either operand, and exactly as strong as the weaker one. |
| `Inference.SingleTermRules` | zjazd-2/fuzzy_heating.py:118-122 | Rules 7 and 8 fire at exactly the degree of `cieplo` on room temperature and of `nisko` on humidity. |
| `Inference.HeatingInputs` | zjazd-2/fuzzy_heating.py:158-161 | The wrapper supplies every input variable, each under its own name with its own reading. |
| `Inference.FrostyDayTerms` | zjazd-2/fuzzy_heating.py:192-198 | For the frosty-day scenario (17, -10, 30), the term degrees are 1/8, 1/5, 0, 2/3, 0, 1/2 and 0. |
| `Inference.FrostyDayFiring` | zjazd-2/fuzzy_heating.py:192-198 | In that scenario rules 1 and 4 fire at 1/8 and 1/5 and the dry-air rule 8 at 1/2. Rule 2 does not fire, and neither does any rule that would lower the power (rules 3, 5, 6, 7 and 9). |
| `Inference.FrostyDayStrongRules` | zjazd-2/fuzzy_heating.py:101-122 | At (17, -10, 30), rules 1, 4 and 8 fire at exactly 1/8, 1/5 and 1/2. |
| `Inference.FrostyDayQuietRules` | zjazd-2/fuzzy_heating.py:107-125 | At (17, -10, 30), rules 3, 6, 7 and 9 do not fire. |
| `Inference.FrostyDayMildOutsideRules` | zjazd-2/fuzzy_heating.py:192-198 | In the frosty-day scenario the outside label `zimno` is 0 at -10, so rules 2 and 5 do not fire. |
| `Inference.Clipped` | zjazd-2/fuzzy_heating.py:163-164 | A rule's clipped contribution is the smaller of its firing strength and the consequent's degree. A rule about another output contributes nothing. |
| `Inference.Aggregate` | zjazd-2/fuzzy_heating.py:163-164 | The aggregated degree lies in `[0, 1]` and is at least every rule's clipped contribution. It is 0 or one of those contributions. |
| `Inference.AggregateOrderFree` | zjazd-2/fuzzy_heating.py:133-136 | Reordering the rule list, or repeating rules in it, does not change the aggregated curve. |
| `Inference.Curve` | zjazd-2/fuzzy_heating.py:163-164 | The aggregated curve has one value in `[0, 1]` for each sample of the output universe, and that value is the max-aggregate of the rules at the sample. |
| `Inference.Centroid` | zjazd-2/fuzzy_heating.py:163-164 | The centroid is the balance point: times the total weight, it gives the weighted sum of the samples. |
| `Inference.MomentBounds` | zjazd-2/fuzzy_heating.py:163-164 | With non-negative weights, the moment lies between `lo * area` and `hi * area`. |
| `Inference.CentroidWithin` | zjazd-2/fuzzy_heating.py:163-164 | A centroid of non-negative weights over samples in `[lo, hi]` lies in `[lo, hi]`. |
| `Inference.CurveCentroidWithin` | zjazd-2/fuzzy_heating.py:163-164 | The centroid of an output's aggregated curve lies between the first and last samples of its universe. |
| `Inference.Compute` | zjazd-2/fuzzy_heating.py:159-169 | An evaluation raises exactly when an input is missing or some output curve has zero area. Otherwise it yields one value per output variable. That value is the centroid of the variable's aggregated curve, and it lies within the variable's universe. |
| `Inference.ZeroActivationRaises` | zjazd-2/fuzzy_heating.py:163-164 | If no rule fires, the evaluation raises. |
| `Inference.CalculateHeating` | zjazd-2/fuzzy_heating.py:157-174 | The result is the computed `heating_power` when there is one. A non-zero result always comes from a computed output, and every failure yields 0.0. |
| `Inference.Heating` | zjazd-2/fuzzy_heating.py:145-174 | For any readings, the heating power lies in [0, 100]. |
| `Inference.PowerCurve` | zjazd-2/fuzzy_heating.py:163-164 | The heating-power curve for a set of readings has one value in `[0, 1]` per sample of 0..100. |
| `Inference.FiringRuleGivesCentroid` | zjazd-2/fuzzy_heating.py:145-174 | When some rule fires, the power curve has positive area, and `calculate_heating` returns that curve's centroid. This is the converse of `HeatingZeroActivation`. |
| `Inference.PositiveAreaWhenFiring` | zjazd-2/fuzzy_heating.py:163-164 | A firing rule concluding a label of an output gives that output's curve positive area, because the label is 1 at some sample. |
| `Inference.ComputeWithPositiveArea` | zjazd-2/fuzzy_heating.py:163-169 | For a system with one output whose curve has positive area, the evaluation does not raise, and the output value is that curve's centroid. |
| `Inference.PeakOfConclusion` | zjazd-2/fuzzy_heating.py:90-92 | Every rule concludes a heating-power label whose peak (0, 50 or 100) is a universe sample where the label is 1. |
| `Inference.PowerIsOnlyOutput` | zjazd-2/fuzzy_heating.py:133-136 | The controller has the single output `heating_power`. |
| `Inference.WarmRoomTerms` | zjazd-2/fuzzy_heating.py:320-326 | At (30, 0, 50) every room label is 0, and so are the humidity labels `nisko` and `wysoko`. |
| `Inference.WarmRoomRule` | zjazd-2/fuzzy_heating.py:101-125 | At (30, 0, 50) each of the nine rules fires at 0, because each reads a room label or a humidity extreme. |
| `Inference.WarmRoomFallback` | zjazd-2/fuzzy_heating.py:320-326 | The last point of the chart's room-temperature sweep, (30, 0, 50), fires no rule, so its power is the fallback 0.0. |
| `Inference.HeatingZeroActivation` | zjazd-2/fuzzy_heating.py:157-174 | Readings that fire no rule give the fallback power 0.0. |
| `Interpretation.Interpret` | zjazd-2/fuzzy_heating.py:247-253 | The three bands cover every power and do not overlap: at least 70 is maximum, [40, 70) is medium, and below 40 is minimum. |
| `Interpretation.BarColour` | zjazd-2/fuzzy_heating.py:296-298 | The bar is red from 70 up, yellow on [40, 70), and green below 40. |
| `Interpretation.ColourFollowsBand` | zjazd-2/fuzzy_heating.py:296-298 | The chart colours each bar by the same cut points that band its value. |
| `Interpretation.BandMonotone` | zjazd-2/fuzzy_heating.py:248-253 | A larger power never falls into a lower band. |

## Findings

| source | as written | input that shows it | evidently intended | confidence | as-written member | corrected member |
|---|---|---|---|---|---|---|
| zjazd-1/wythoff.py:65-75 | `win()` is true when both heaps are empty, and `scoring()` then returns +100. A negamax search reads that as the value for the player to move. That player did not take the last object, and line 115 names the other player as winner. | Heaps 1 and 1, computer to move: the listed move `"1,1"` wins by line 115 but leads to a position worth -100 to the computer, so the search prefers other moves. | A finished position scores -100 for the player to move, so the player who took the last object is credited. | medium; not executed; relies on easyAI's convention that `scoring()` is from the point of view of the player to move | `Wythoff.ScoringCreditsLoser`, `Wythoff.WinningMoveScoredAsLoss` | `Wythoff.WinnerScoring`, `Wythoff.WinnerScoringCreditsWinner` |

## Left out

- Pygame rendering, hit-testing of mouse positions against rectangles, and the frame loop and clock (`zjazd-1/wythoff.py:82-129`, `141-206`) are UI. A click reaches the model as the index of the matchstick that was hit. The dispatch between the end-of-game buttons, the human's turn and the computer's turn is not modelled.
- The easyAI `Negamax` search and the `Human_Player` / `AI_Player` objects belong to an external library. The computer's choice is the `choose` parameter of `Wythoff.PlayOut`. The only part of its convention the model uses is that a score is read from the point of view of the player to move (`Wythoff.ValueFor`).
- `show()` prints to the console and is not modelled.
- Python lets a caller pass any list as `heaps`, and `make_move` then mutates that list in place. The model always has exactly two heaps and works on values.
- PyText.ParseNat: handles only plain ASCII digit strings. Python's `int()` also accepts a sign, surrounding whitespace, underscores and non-ASCII digits. Moves only ever come from formatting naturals, so those forms never arise.
- Wythoff.ParseMove: raises on strings that `int()` would still read, such as `" 1,2"`, `"-1,2"` and `"1_0,2"`, because it inherits `PyText.ParseNat`'s digit-only reading. This never matters: `make_move` only receives strings that `possible_moves` produced (`zjazd-1/wythoff.py:194`, `199`).
- The scikit-fuzzy internals are not part of the repository. These include the mutable `input`/`output` dictionaries of the simulation object. Clipping, max-aggregation and centroid defuzzification are modelled as an assumed Mamdani specification of that library. The model makes no claim of numerical equality with it. The library's centroid integrates a piecewise-linear curve, while the model uses the discrete weighted mean over the universe samples.
- The library evaluates input membership by interpolating between universe samples. The model evaluates the exact triangle at the clipped reading. Every breakpoint is an integer and the samples are all the integers of each universe, so each triangle is linear between neighbouring samples and the two agree; the model does not prove this.
- The model assumes that the library raises when an output curve has zero area and when an input is missing. `calculate_heating` turns both into 0.0.
- The end-to-end power for the demonstration scenarios is not proved. Neither is the claim that a single fully firing rule gives an output near its peak. Both would need the library's exact defuzzification. The firing strengths of the frosty-day scenario are proved instead.
- `demo_real_time` printing and `time.sleep`, and `visualize_results` with its matplotlib file export (`zjazd-2/fuzzy_heating.py:180-395`), are I/O. The band and colour cut points they use are modelled.
- The `except` branch of `calculate_heating` prints the error. Only its 0.0 result is modelled.
- All other directories (`zjazd-3` to `zjazd-7`) call libraries end to end, so they are not part of this model.

=== FILE: heating_config.dfy ===
/**
  The heating controller's configuration: three input variables (room
  temperature, outside temperature, humidity), one output variable (heating
  power), three triangular labels on each, and the nine-rule base.
 */
module HeatingConfig {
  import opened Membership

  /** `np.arange(start, stop, 1)`: the integers from `start` up to, not including, `stop`. */
  function Arange(start: int, stop: int): (r: seq<int>)
    ensures |r| == if start < stop then stop - start else 0
  {
    seq(if start < stop then stop - start else 0, i => start + i)
  }

  /** The samples come out strictly ascending. */
  lemma ArangeAscending(start: int, stop: int)
    ensures forall i, j :: 0 <= i < j < |Arange(start, stop)| ==> Arange(start, stop)[i] < Arange(start, stop)[j]
  {
  }

  /** The samples are exactly the integers of `[start, stop)`. */
  lemma ArangeMembers(start: int, stop: int, x: int)
    ensures x in Arange(start, stop) <==> start <= x < stop
  {
    if start <= x < stop {
      assert Arange(start, stop)[x - start] == x;
    }
  }

  /** A linguistic variable: its discretized universe and its labelled membership functions. */
  datatype Variable = Variable(name: string, universe: seq<int>, terms: map<string, Triangle>)

  /** A reference to one label of one variable, as `temp_room['zimno']` is. */
  datatype Term = Term(variable: string, name: string)

  /** A rule's condition: a single term, or two conditions joined by `&`. */
  datatype Antecedent = Is(term: Term) | And(left: Antecedent, right: Antecedent)

  datatype Rule = Rule(antecedent: Antecedent, consequent: Term)

  /** The control system: variables by name, and the rule list in declaration order. */
  datatype System = System(inputs: map<string, Variable>, outputs: map<string, Variable>, rules: seq<Rule>)

  const TempRoom := Variable("temp_room", Arange(10, 31), map[
    "zimno" := Triangle(10.0, 10.0, 18.0),
    "komfort" := Triangle(16.0, 21.0, 25.0),
    "cieplo" := Triangle(22.0, 28.0, 30.0)])

  const TempOutside := Variable("temp_outside", Arange(-15, 21), map[
    "bardzo_zimno" := Triangle(-15.0, -15.0, 0.0),
    "zimno" := Triangle(-5.0, 5.0, 15.0),
    "ciepło" := Triangle(10.0, 20.0, 20.0)])

  const Humidity := Variable("humidity", Arange(20, 101), map[
    "nisko" := Triangle(20.0, 20.0, 40.0),
    "umiarkowana" := Triangle(35.0, 60.0, 80.0),
    "wysoko" := Triangle(70.0, 100.0, 100.0)])

  const HeatingPower := Variable("heating_power", Arange(0, 101), map[
    "niska" := Triangle(0.0, 0.0, 40.0),
    "średnia" := Triangle(25.0, 50.0, 75.0),
    "wysoka" := Triangle(60.0, 100.0, 100.0)])

  function Cond(variable: string, name: string): Antecedent {
    Is(Term(variable, name))
  }

  function Power(name: string): Term {
    Term("heating_power", name)
  }

  const HeatingRules: seq<Rule> := [
    Rule(And(Cond("temp_room", "zimno"), Cond("temp_outside", "bardzo_zimno")), Power("wysoka")),
    Rule(And(Cond("temp_room", "zimno"), Cond("temp_outside", "zimno")), Power("wysoka")),
    Rule(And(Cond("temp_room", "zimno"), Cond("temp_outside", "ciepło")), Power("średnia")),
    Rule(And(Cond("temp_room", "komfort"), Cond("temp_outside", "bardzo_zimno")), Power("wysoka")),
    Rule(And(Cond("temp_room", "komfort"), Cond("temp_outside", "zimno")), Power("średnia")),
    Rule(And(Cond("temp_room", "komfort"), Cond("temp_outside", "ciepło")), Power("niska")),
    Rule(Cond("temp_room", "cieplo"), Power("niska")),
    Rule(Cond("humidity", "nisko"), Power("wysoka")),
    Rule(And(Cond("humidity", "wysoko"), Cond("temp_room", "komfort")), Power("niska"))
  ]

  const HeatingControl := System(
    map["temp_room" := TempRoom, "temp_outside" := TempOutside, "humidity" := Humidity],
    map["heating_power" := HeatingPower],
    HeatingRules)

  /** The term names a label that exists on one of the given variables. */
  predicate TermOn(vars: map<string, Variable>, t: Term) {
    t.variable in vars && t.name in vars[t.variable].terms
  }

  predicate AntecedentOn(vars: map<string, Variable>, ant: Antecedent) {
    match ant
    case Is(t) => TermOn(vars, t)
    case And(l, r) => AntecedentOn(vars, l) && AntecedentOn(vars, r)
  }

  /**
    The universe is a non-empty ascending run of samples, and every
    membership triple is ordered and lies within it.
   */
  predicate WellFormedVariable(v: Variable) {
    && |v.universe| > 0
    && (forall i, j :: 0 <= i < j < |v.universe| ==> v.universe[i] < v.universe[j])
    && forall key :: key in v.terms ==>
         && WellFormed(v.terms[key])
         && v.universe[0] as real <= v.terms[key].a
         && v.terms[key].c <= v.universe[|v.universe| - 1] as real
  }

  predicate WellFormedVariables(vars: map<string, Variable>) {
    forall name :: name in vars ==> vars[name].name == name && WellFormedVariable(vars[name])
  }

  predicate WellFormedRule(sys: System, r: Rule) {
    AntecedentOn(sys.inputs, r.antecedent) && TermOn(sys.outputs, r.consequent)
  }

  /**
    An internally consistent system: variables are filed under their own
    names and well formed, no variable is both input and output, every rule
    reads input labels that exist and concludes an output label that exists.
   */
  predicate WellFormedSystem(sys: System) {
    && WellFormedVariables(sys.inputs)
    && WellFormedVariables(sys.outputs)
    && sys.inputs.Keys !! sys.outputs.Keys
    && forall i :: 0 <= i < |sys.rules| ==> WellFormedRule(sys, sys.rules[i])
  }

  /** The universes have the sizes and end points the configuration comments give. */
  lemma UniverseSizes()
    ensures |TempRoom.universe| == 21 && TempRoom.universe[0] == 10 && TempRoom.universe[20] == 30
    ensures |TempOutside.universe| == 36 && TempOutside.universe[0] == -15 && TempOutside.universe[35] == 20
    ensures |Humidity.universe| == 81 && Humidity.universe[0] == 20 && Humidity.universe[80] == 100
    ensures |HeatingPower.universe| == 101 && HeatingPower.universe[0] == 0 && HeatingPower.universe[100] == 100
  {
  }

  /** Every label reaches full membership at the peak its comment names. */
  lemma PeaksAsCommented()
    ensures Degree(TempRoom.terms["zimno"], 10.0) == 1.0
    ensures Degree(TempRoom.terms["komfort"], 21.0) == 1.0
    ensures Degree(TempRoom.terms["cieplo"], 28.0) == 1.0
    ensures Degree(TempOutside.terms["bardzo_zimno"], -15.0) == 1.0
    ensures Degree(TempOutside.terms["zimno"], 5.0) == 1.0
    ensures Degree(TempOutside.terms["ciepło"], 20.0) == 1.0
    ensures Degree(Humidity.terms["nisko"], 20.0) == 1.0
    ensures Degree(Humidity.terms["umiarkowana"], 60.0) == 1.0
    ensures Degree(Humidity.terms["wysoko"], 100.0) == 1.0
    ensures Degree(HeatingPower.terms["niska"], 0.0) == 1.0
    ensures Degree(HeatingPower.terms["średnia"], 50.0) == 1.0
    ensures Degree(HeatingPower.terms["wysoka"], 100.0) == 1.0
  {
  }

  /** A variable whose labels are the three given ones, each ordered and inside the universe. */
  lemma ThreeLabelVariable(v: Variable, k1: string, k2: string, k3: string)
    requires v.terms.Keys == {k1, k2, k3} && |v.universe| > 0
    requires forall i, j :: 0 <= i < j < |v.universe| ==> v.universe[i] < v.universe[j]
    requires forall key :: key in {k1, k2, k3} ==>
      && WellFormed(v.terms[key])
      && v.universe[0] as real <= v.terms[key].a
      && v.terms[key].c <= v.universe[|v.universe| - 1] as real
    ensures WellFormedVariable(v)
  {
  }

  lemma TempRoomWellFormed() ensures WellFormedVariable(TempRoom) {
    ThreeLabelVariable(TempRoom, "zimno", "komfort", "cieplo");
  }

  lemma TempOutsideWellFormed() ensures WellFormedVariable(TempOutside) {
    ThreeLabelVariable(TempOutside, "bardzo_zimno", "zimno", "ciepło");
  }

  lemma HumidityWellFormed() ensures WellFormedVariable(Humidity) {
    ThreeLabelVariable(Humidity, "nisko", "umiarkowana", "wysoko");
  }

  lemma HeatingPowerWellFormed() ensures WellFormedVariable(HeatingPower) {
    ThreeLabelVariable(HeatingPower, "niska", "średnia", "wysoka");
  }

  /** The three inputs are filed under their own names and well formed. */
  lemma InputsWellFormed()
    ensures WellFormedVariables(HeatingControl.inputs)
  {
    TempRoomWellFormed();
    TempOutsideWellFormed();
    HumidityWellFormed();
    assert HeatingControl.inputs.Keys == {"temp_room", "temp_outside", "humidity"};
  }

  /** Every rule reads input labels that exist and concludes a heating-power label that exists. */
  lemma RulesWellFormed(i: nat)
    requires i < |HeatingRules|
    ensures WellFormedRule(HeatingControl, HeatingRules[i])
    ensures HeatingRules[i].consequent in {Power("niska"), Power("średnia"), Power("wysoka")}
  {
  }

  /**
    The configured system is consistent: triples ordered and inside their
    universes, nine rules, all concluding one of the three power labels and
    reading only labels that exist on input variables.
   */
  lemma HeatingControlWellFormed()
    ensures WellFormedSystem(HeatingControl)
    ensures |HeatingControl.rules| == 9
    ensures forall i :: 0 <= i < 9 ==>
      HeatingControl.rules[i].consequent in {Power("niska"), Power("średnia"), Power("wysoka")}
  {
    InputsWellFormed();
    HeatingPowerWellFormed();
    forall i | 0 <= i < |HeatingRules|
      ensures WellFormedRule(HeatingControl, HeatingRules[i])
      ensures HeatingRules[i].consequent in {Power("niska"), Power("średnia"), Power("wysoka")}
    {
      RulesWellFormed(i);
    }
  }

  /**
    The room label is spelled `cieplo` and the outside label `ciepło`; each
    spelling exists on its own variable only, and the rules use each where it
    exists.
   */
  lemma WarmLabelSpellings()
    ensures "cieplo" in TempRoom.terms && "ciepło" !in TempRoom.terms
    ensures "ciepło" in TempOutside.terms && "cieplo" !in TempOutside.terms
    ensures HeatingRules[6].antecedent == Cond("temp_room", "cieplo")
    ensures HeatingRules[2].antecedent.right == Cond("temp_outside", "ciepło")
  {
  }
}

=== FILE: inference.dfy ===
/**
  Evaluating the heating controller. Rule firing follows the configuration
  directly: a term's strength is its label's degree at the crisp input, and
  `&` takes the minimum. Clipping, max-aggregation over the output universe
  and centroid defuzzification are the standard Mamdani steps the control
  library performs; they are stated here as an assumed specification of that
  library, not as a transcription of it. `CalculateHeating` is the wrapper
  that turns any failure of the library into a power of 0.0.
 */
module Inference {
  import opened Membership
  import opened HeatingConfig

  /** Crisp values by input-variable name, as set on `heating_sim.input`. */
  type Inputs = map<string, real>

  /** What one evaluation by the library yields: an exception, or the output values. */
  datatype Outcome = Raised | Outputs(values: map<string, real>)

  function Min(x: real, y: real): real {
    if x <= y then x else y
  }

  function Max(x: real, y: real): real {
    if x >= y then x else y
  }

  /** Every input variable of the system has a crisp value. */
  predicate Supplied(sys: System, inputs: Inputs) {
    forall name :: name in sys.inputs ==> name in inputs
  }

  /**
    The crisp value the library evaluates: a reading outside the variable's
    universe is first clipped to the nearer end of it, as a simulation built
    with the default `clip_to_bounds` does.
   */
  function ClipToUniverse(u: seq<int>, x: real): (c: real)
    ensures |u| > 0 && First(u) <= Last(u) ==> First(u) as real <= c <= Last(u) as real
    ensures |u| > 0 && First(u) as real <= x <= Last(u) as real ==> c == x
    ensures |u| > 0 && x < First(u) as real ==> c == First(u) as real
    ensures |u| > 0 && First(u) as real <= x && Last(u) as real < x ==> c == Last(u) as real
    ensures |u| == 0 ==> c == x
  {
    if |u| == 0 then x
    else if x < First(u) as real then First(u) as real
    else if x > Last(u) as real then Last(u) as real
    else x
  }

  /** The firing strength of a condition: a term's degree at its clipped crisp value, `&` as minimum. */
  function Strength(sys: System, inputs: Inputs, ant: Antecedent): (s: real)
    requires AntecedentOn(sys.inputs, ant) && Supplied(sys, inputs)
    ensures 0.0 <= s <= 1.0
  {
    match ant
    case Is(t) =>
      var v := sys.inputs[t.variable];
      Degree(v.terms[t.name], ClipToUniverse(v.universe, inputs[t.variable]))
    case And(l, r) => Min(Strength(sys, inputs, l), Strength(sys, inputs, r))
  }

  /** How strongly a rule fires: the strength of its condition. */
  function RuleStrength(sys: System, inputs: Inputs, r: Rule): real
    requires WellFormedRule(sys, r) && Supplied(sys, inputs)
  {
    Strength(sys, inputs, r.antecedent)
  }

  /** A conjunction fires no stronger than either side, and exactly as strong as the weaker. */
  lemma AndIsMinimum(sys: System, inputs: Inputs, l: Antecedent, r: Antecedent)
    requires AntecedentOn(sys.inputs, And(l, r)) && Supplied(sys, inputs)
    ensures Strength(sys, inputs, And(l, r)) <= Strength(sys, inputs, l)
    ensures Strength(sys, inputs, And(l, r)) <= Strength(sys, inputs, r)
    ensures Strength(sys, inputs, And(l, r)) == Strength(sys, inputs, l)
         || Strength(sys, inputs, And(l, r)) == Strength(sys, inputs, r)
  {
  }

  /** Rules 7 and 8 have a single term and fire at exactly that term's degree. */
  lemma SingleTermRules(inputs: Inputs)
    requires Supplied(HeatingControl, inputs)
    ensures AntecedentOn(HeatingControl.inputs, HeatingRules[6].antecedent)
    ensures AntecedentOn(HeatingControl.inputs, HeatingRules[7].antecedent)
    ensures Strength(HeatingControl, inputs, HeatingRules[6].antecedent)
         == Degree(Triangle(22.0, 28.0, 30.0), ClipToUniverse(TempRoom.universe, inputs["temp_room"]))
    ensures Strength(HeatingControl, inputs, HeatingRules[7].antecedent)
         == Degree(Triangle(20.0, 20.0, 40.0), ClipToUniverse(Humidity.universe, inputs["humidity"]))
  {
    RulesWellFormed(6);
    RulesWellFormed(7);
  }

  /** The crisp readings of one call, keyed by the names the library expects. */
  function HeatingInputs(tempRoom: real, tempOutside: real, humidity: real): (inputs: Inputs)
    ensures Supplied(HeatingControl, inputs)
    ensures inputs["temp_room"] == tempRoom && inputs["temp_outside"] == tempOutside && inputs["humidity"] == humidity
  {
    map["temp_room" := tempRoom, "temp_outside" := tempOutside, "humidity" := humidity]
  }

  /** The term degrees at room 17, outside -10, humidity 30. */
  lemma FrostyDayTerms()
    ensures var sys, inputs := HeatingControl, HeatingInputs(17.0, -10.0, 30.0);
      && Strength(sys, inputs, Cond("temp_room", "zimno")) == 0.125
      && Strength(sys, inputs, Cond("temp_room", "komfort")) == 0.2
      && Strength(sys, inputs, Cond("temp_room", "cieplo")) == 0.0
      && Strength(sys, inputs, Cond("temp_outside", "bardzo_zimno")) == 2.0 / 3.0
      && Strength(sys, inputs, Cond("temp_outside", "zimno")) == 0.0
      && Strength(sys, inputs, Cond("temp_outside", "ciepło")) == 0.0
      && Strength(sys, inputs, Cond("humidity", "nisko")) == 0.5
      && Strength(sys, inputs, Cond("humidity", "wysoko")) == 0.0
  {
    var sys, inputs := HeatingControl, HeatingInputs(17.0, -10.0, 30.0);
    assert inputs["temp_room"] == 17.0 && inputs["temp_outside"] == -10.0 && inputs["humidity"] == 30.0;
    UniverseSizes();
    assert ClipToUniverse(TempRoom.universe, 17.0) == 17.0;
    assert ClipToUniverse(TempOutside.universe, -10.0) == -10.0;
    assert ClipToUniverse(Humidity.universe, 30.0) == 30.0;
    assert sys.inputs["temp_room"] == TempRoom;
    assert sys.inputs["temp_outside"] == TempOutside;
    assert sys.inputs["humidity"] == Humidity;
    assert Degree(Triangle(10.0, 10.0, 18.0), 17.0) == 0.125;
    assert Degree(Triangle(16.0, 21.0, 25.0), 17.0) == 0.2;
    assert Degree(Triangle(-15.0, -15.0, 0.0), -10.0) == 2.0 / 3.0;
    assert Degree(Triangle(-5.0, 5.0, 15.0), -10.0) == 0.0;
    assert Degree(Triangle(20.0, 20.0, 40.0), 30.0) == 0.5;
  }

  /**
    The frosty-day scenario (room 17, outside -10, humidity 30): rules 1 and 4
    (bitter cold outside) fire at 1/8 and 1/5, the dry-air rule at 1/2, rule 2
    (merely cold outside) stays at 0, and so does every rule that would lower
    the power.
   */
  lemma FrostyDayFiring()
    ensures forall i :: 0 <= i < 9 ==> WellFormedRule(HeatingControl, HeatingRules[i])
    ensures var inputs := HeatingInputs(17.0, -10.0, 30.0);
      && RuleStrength(HeatingControl, inputs, HeatingRules[0]) == 0.125
      && RuleStrength(HeatingControl, inputs, HeatingRules[3]) == 0.2
      && RuleStrength(HeatingControl, inputs, HeatingRules[7]) == 0.5
      && RuleStrength(HeatingControl, inputs, HeatingRules[1]) == 0.0
      && RuleStrength(HeatingControl, inputs, HeatingRules[4]) == 0.0
      && RuleStrength(HeatingControl, inputs, HeatingRules[2]) == 0.0
      && RuleStrength(HeatingControl, inputs, HeatingRules[5]) == 0.0
      && RuleStrength(HeatingControl, inputs, HeatingRules[6]) == 0.0
      && RuleStrength(HeatingControl, inputs, HeatingRules[8]) == 0.0
  {
    forall i | 0 <= i < 9 ensures WellFormedRule(HeatingControl, HeatingRules[i]) {
      RulesWellFormed(i);
    }
    FrostyDayStrongRules();
    FrostyDayMildOutsideRules();
    FrostyDayQuietRules();
  }

  /** Rules 1, 4 and 8 take their strength from the bitter-cold outside label and the dry-air label. */
  lemma FrostyDayStrongRules()
    ensures WellFormedRule(HeatingControl, HeatingRules[0]) && WellFormedRule(HeatingControl, HeatingRules[3])
    ensures WellFormedRule(HeatingControl, HeatingRules[7])
    ensures var inputs := HeatingInputs(17.0, -10.0, 30.0);
      && RuleStrength(HeatingControl, inputs, HeatingRules[0]) == 0.125
      && RuleStrength(HeatingControl, inputs, HeatingRules[3]) == 0.2
      && RuleStrength(HeatingControl, inputs, HeatingRules[7]) == 0.5
  {
    RulesWellFormed(0);
    RulesWellFormed(3);
    RulesWellFormed(7);
    FrostyDayTerms();
    assert HeatingRules[0].antecedent == And(Cond("temp_room", "zimno"), Cond("temp_outside", "bardzo_zimno"));
    assert HeatingRules[3].antecedent == And(Cond("temp_room", "komfort"), Cond("temp_outside", "bardzo_zimno"));
    assert HeatingRules[7].antecedent == Cond("humidity", "nisko");
  }

  /** The rules that would lower the power read a label that is 0 at the frosty-day readings. */
  lemma FrostyDayQuietRules()
    ensures WellFormedRule(HeatingControl, HeatingRules[2]) && WellFormedRule(HeatingControl, HeatingRules[5])
    ensures WellFormedRule(HeatingControl, HeatingRules[6]) && WellFormedRule(HeatingControl, HeatingRules[8])
    ensures var inputs := HeatingInputs(17.0, -10.0, 30.0);
      && RuleStrength(HeatingControl, inputs, HeatingRules[2]) == 0.0
      && RuleStrength(HeatingControl, inputs, HeatingRules[5]) == 0.0
      && RuleStrength(HeatingControl, inputs, HeatingRules[6]) == 0.0
      && RuleStrength(HeatingControl, inputs, HeatingRules[8]) == 0.0
  {
    RulesWellFormed(2);
    RulesWellFormed(5);
    RulesWellFormed(6);
    RulesWellFormed(8);
    FrostyDayTerms();
    assert HeatingRules[2].antecedent.right == Cond("temp_outside", "ciepło");
    assert HeatingRules[5].antecedent.right == Cond("temp_outside", "ciepło");
    assert HeatingRules[6].antecedent == Cond("temp_room", "cieplo");
    assert HeatingRules[8].antecedent.left == Cond("humidity", "wysoko");
  }

  /** At outside -10 the `zimno` outside label is 0, so rules 2 and 5, which need it, stay at 0. */
  lemma FrostyDayMildOutsideRules()
    ensures WellFormedRule(HeatingControl, HeatingRules[1]) && WellFormedRule(HeatingControl, HeatingRules[4])
    ensures var inputs := HeatingInputs(17.0, -10.0, 30.0);
      && RuleStrength(HeatingControl, inputs, HeatingRules[1]) == 0.0
      && RuleStrength(HeatingControl, inputs, HeatingRules[4]) == 0.0
  {
    RulesWellFormed(1);
    RulesWellFormed(4);
    FrostyDayTerms();
    assert HeatingRules[1].antecedent == And(Cond("temp_room", "zimno"), Cond("temp_outside", "zimno"));
    assert HeatingRules[4].antecedent == And(Cond("temp_room", "komfort"), Cond("temp_outside", "zimno"));
  }

  /**
    A reading below the room universe counts as its lower end: at room 5,
    outside 0, humidity 50 the room is fully `zimno`, and rule 2 (cold room,
    cold outside) fires at 1/2 instead of not at all.
   */
  lemma ColdRoomBelowUniverse()
    ensures WellFormedRule(HeatingControl, HeatingRules[1])
    ensures var inputs := HeatingInputs(5.0, 0.0, 50.0);
      && Strength(HeatingControl, inputs, Cond("temp_room", "zimno")) == 1.0
      && RuleStrength(HeatingControl, inputs, HeatingRules[1]) == 0.5
  {
    RulesWellFormed(1);
    var sys, inputs := HeatingControl, HeatingInputs(5.0, 0.0, 50.0);
    assert inputs["temp_room"] == 5.0 && inputs["temp_outside"] == 0.0;
    UniverseSizes();
    assert sys.inputs["temp_room"] == TempRoom;
    assert sys.inputs["temp_outside"] == TempOutside;
    assert ClipToUniverse(TempRoom.universe, 5.0) == 10.0;
    assert ClipToUniverse(TempOutside.universe, 0.0) == 0.0;
    assert Degree(Triangle(10.0, 10.0, 18.0), 10.0) == 1.0;
    assert Degree(Triangle(-5.0, 5.0, 15.0), 0.0) == 0.5;
    assert HeatingRules[1].antecedent == And(Cond("temp_room", "zimno"), Cond("temp_outside", "zimno"));
    assert Strength(sys, inputs, Cond("temp_outside", "zimno")) == 0.5;
  }

  /** Every rule of the list is well formed against the system's variables. */
  predicate RulesOn(sys: System, rules: seq<Rule>) {
    forall i :: 0 <= i < |rules| ==> WellFormedRule(sys, rules[i])
  }

  /**
    Implication by clipping: what rule `r` contributes to output `out` at
    sample `x`. A rule about another output contributes nothing.
   */
  function Clipped(sys: System, inputs: Inputs, r: Rule, out: string, x: real): (m: real)
    requires WellFormedRule(sys, r) && Supplied(sys, inputs)
    ensures 0.0 <= m <= RuleStrength(sys, inputs, r)
    ensures r.consequent.variable == out ==> m <= Degree(sys.outputs[out].terms[r.consequent.name], x)
    ensures r.consequent.variable != out ==> m == 0.0
    ensures r.consequent.variable == out ==>
      m == RuleStrength(sys, inputs, r) || m == Degree(sys.outputs[out].terms[r.consequent.name], x)
  {
    if r.consequent.variable == out then
      Min(RuleStrength(sys, inputs, r), Degree(sys.outputs[out].terms[r.consequent.name], x))
    else 0.0
  }

  /**
    Max-aggregation: the aggregated membership of output `out` at sample `x`
    is the largest clipped contribution of any rule, or 0 with no contribution.
   */
  function Aggregate(sys: System, inputs: Inputs, rules: seq<Rule>, out: string, x: real): (m: real)
    requires RulesOn(sys, rules) && Supplied(sys, inputs)
    ensures 0.0 <= m <= 1.0
    ensures forall i :: 0 <= i < |rules| ==> Clipped(sys, inputs, rules[i], out, x) <= m
    ensures m == 0.0 || exists i :: 0 <= i < |rules| && m == Clipped(sys, inputs, rules[i], out, x)
    decreases |rules|
  {
    if |rules| == 0 then 0.0
    else
      var rest := Aggregate(sys, inputs, rules[1..], out, x);
      assert forall i :: 1 <= i < |rules| ==> rules[i] == rules[1..][i - 1];
      Max(Clipped(sys, inputs, rules[0], out, x), rest)
  }

  /**
    Aggregation does not depend on the order of the rules (nor on repeats):
    two lists holding the same rules aggregate to the same curve.
   */
  lemma AggregateOrderFree(sys: System, inputs: Inputs, r1: seq<Rule>, r2: seq<Rule>, out: string, x: real)
    requires RulesOn(sys, r1) && RulesOn(sys, r2) && Supplied(sys, inputs)
    requires forall r :: r in r1 <==> r in r2
    ensures Aggregate(sys, inputs, r1, out, x) == Aggregate(sys, inputs, r2, out, x)
  {
    var m1, m2 := Aggregate(sys, inputs, r1, out, x), Aggregate(sys, inputs, r2, out, x);
    if m1 != 0.0 {
      var i :| 0 <= i < |r1| && m1 == Clipped(sys, inputs, r1[i], out, x);
      assert r1[i] in r2;
      var j :| 0 <= j < |r2| && r2[j] == r1[i];
    }
    if m2 != 0.0 {
      var j :| 0 <= j < |r2| && m2 == Clipped(sys, inputs, r2[j], out, x);
      assert r2[j] in r1;
      var i :| 0 <= i < |r1| && r1[i] == r2[j];
    }
  }

  /** The aggregated curve of output `out`, sampled at its universe. */
  function Curve(sys: System, inputs: Inputs, out: string): (ys: seq<real>)
    requires out in sys.outputs && RulesOn(sys, sys.rules) && Supplied(sys, inputs)
    ensures |ys| == |sys.outputs[out].universe|
    ensures forall i :: 0 <= i < |ys| ==> 0.0 <= ys[i] <= 1.0
    ensures forall i :: 0 <= i < |ys| ==>
      ys[i] == Aggregate(sys, inputs, sys.rules, out, sys.outputs[out].universe[i] as real)
  {
    var u := sys.outputs[out].universe;
    seq(|u|, i requires 0 <= i < |u| => Aggregate(sys, inputs, sys.rules, out, u[i] as real))
  }

  function Sum(ys: seq<real>): real {
    if |ys| == 0 then 0.0 else ys[0] + Sum(ys[1..])
  }

  function WeightedSum(xs: seq<int>, ys: seq<real>): real
    requires |xs| == |ys|
  {
    if |xs| == 0 then 0.0 else xs[0] as real * ys[0] + WeightedSum(xs[1..], ys[1..])
  }

  /** Centre of gravity of the sampled curve `ys` over the samples `xs`. */
  function Centroid(xs: seq<int>, ys: seq<real>): (c: real)
    requires |xs| == |ys| && Sum(ys) != 0.0
    ensures c * Sum(ys) == WeightedSum(xs, ys)
  {
    WeightedSum(xs, ys) / Sum(ys)
  }

  lemma {:induction false} SumNonNegative(ys: seq<real>)
    requires forall i :: 0 <= i < |ys| ==> ys[i] >= 0.0
    ensures Sum(ys) >= 0.0
    ensures Sum(ys) == 0.0 <==> forall i :: 0 <= i < |ys| ==> ys[i] == 0.0
  {
    if |ys| > 0 {
      SumNonNegative(ys[1..]);
      assert forall i :: 1 <= i < |ys| ==> ys[i] == ys[1..][i - 1];
    }
  }

  /** With non-negative weights, the moment lies between the extreme samples times the total weight. */
  lemma {:induction false} MomentBounds(xs: seq<int>, ys: seq<real>, lo: real, hi: real)
    requires |xs| == |ys|
    requires forall i :: 0 <= i < |ys| ==> ys[i] >= 0.0 && lo <= xs[i] as real <= hi
    ensures lo * Sum(ys) <= WeightedSum(xs, ys) <= hi * Sum(ys)
  {
    if |xs| > 0 {
      assert forall i :: 0 <= i < |ys[1..]| ==> ys[1..][i] == ys[i + 1] && xs[1..][i] == xs[i + 1];
      MomentBounds(xs[1..], ys[1..], lo, hi);
      MomentStep(lo, hi, xs[0] as real, ys[0], Sum(ys[1..]), WeightedSum(xs[1..], ys[1..]));
    }
  }

  /** One step of the moment bound: adding a sample in `[lo, hi]` with weight `w >= 0`. */
  lemma MomentStep(lo: real, hi: real, x: real, w: real, rest: real, moment: real)
    requires lo <= x <= hi && w >= 0.0
    requires lo * rest <= moment <= hi * rest
    ensures lo * (w + rest) <= x * w + moment <= hi * (w + rest)
  {
    assert lo * w <= x * w <= hi * w;
    assert lo * (w + rest) == lo * w + lo * rest;
    assert hi * (w + rest) == hi * w + hi * rest;
  }

  lemma QuotientBounds(lo: real, hi: real, num: real, den: real)
    requires den > 0.0 && lo * den <= num <= hi * den
    ensures lo <= num / den <= hi
  {
    var q := num / den;
    assert q * den == num;
    if q < lo {
      assert false;
    }
    if q > hi {
      assert false;
    }
  }

  /** A centroid over samples in `[lo, hi]` with non-negative, not all zero, weights lies in `[lo, hi]`. */
  lemma CentroidWithin(xs: seq<int>, ys: seq<real>, lo: real, hi: real)
    requires |xs| == |ys|
    requires forall i :: 0 <= i < |ys| ==> ys[i] >= 0.0 && lo <= xs[i] as real <= hi
    requires Sum(ys) != 0.0
    ensures lo <= Centroid(xs, ys) <= hi
  {
    SumNonNegative(ys);
    MomentBounds(xs, ys, lo, hi);
    QuotientBounds(lo, hi, WeightedSum(xs, ys), Sum(ys));
  }

  /** The centroid of an output's curve lies between the first and last samples of its universe. */
  lemma CurveCentroidWithin(sys: System, inputs: Inputs, out: string)
    requires WellFormedSystem(sys) && Supplied(sys, inputs) && out in sys.outputs
    requires Sum(Curve(sys, inputs, out)) != 0.0
    ensures var u := sys.outputs[out].universe;
      First(u) as real <= Centroid(u, Curve(sys, inputs, out)) <= Last(u) as real
  {
    var u := sys.outputs[out].universe;
    assert WellFormedVariable(sys.outputs[out]);
    assert forall i :: 0 <= i < |u| ==> First(u) as real <= u[i] as real <= Last(u) as real by {
      forall i | 0 <= i < |u| ensures First(u) as real <= u[i] as real <= Last(u) as real {
        if 0 < i { assert u[0] < u[i]; }
        if i < |u| - 1 { assert u[i] < u[|u| - 1]; }
      }
    }
    CentroidWithin(u, Curve(sys, inputs, out), First(u) as real, Last(u) as real);
  }

  /** Some output's aggregated curve has zero area: the library cannot defuzzify it. */
  predicate ZeroArea(sys: System, inputs: Inputs)
    requires RulesOn(sys, sys.rules) && Supplied(sys, inputs)
  {
    exists out :: out in sys.outputs && Sum(Curve(sys, inputs, out)) == 0.0
  }

  function First(u: seq<int>): int requires |u| > 0 { u[0] }
  function Last(u: seq<int>): int requires |u| > 0 { u[|u| - 1] }

  /**
    One evaluation (`compute()` followed by reading `output`): a missing
    input or an output curve of zero area raises; otherwise every output
    variable gets the centroid of its aggregated curve.
   */
  function Compute(sys: System, inputs: Inputs): (o: Outcome)
    requires WellFormedSystem(sys)
    ensures o.Raised? <==> !Supplied(sys, inputs) || ZeroArea(sys, inputs)
    ensures o.Outputs? ==> o.values.Keys == sys.outputs.Keys
    ensures o.Outputs? ==> forall out :: out in o.values ==>
      First(sys.outputs[out].universe) as real <= o.values[out] <= Last(sys.outputs[out].universe) as real
    ensures o.Outputs? ==> forall out :: out in o.values ==>
      && Sum(Curve(sys, inputs, out)) != 0.0
      && o.values[out] == Centroid(sys.outputs[out].universe, Curve(sys, inputs, out))
  {
    if !Supplied(sys, inputs) then Raised
    else if ZeroArea(sys, inputs) then Raised
    else
      var values := map out | out in sys.outputs :: Centroid(sys.outputs[out].universe, Curve(sys, inputs, out));
      forall out | out in values
        ensures First(sys.outputs[out].universe) as real <= values[out] <= Last(sys.outputs[out].universe) as real
      {
        CurveCentroidWithin(sys, inputs, out);
      }
      Outputs(values)
  }

  /** If no rule fires at all, defuzzification has nothing to work with and the library raises. */
  lemma ZeroActivationRaises(sys: System, inputs: Inputs)
    requires WellFormedSystem(sys) && Supplied(sys, inputs) && |sys.outputs| > 0
    requires forall i :: 0 <= i < |sys.rules| ==> RuleStrength(sys, inputs, sys.rules[i]) == 0.0
    ensures Compute(sys, inputs) == Raised
  {
    var out :| out in sys.outputs;
    var ys := Curve(sys, inputs, out);
    forall i | 0 <= i < |ys| ensures ys[i] == 0.0 {
      var x := sys.outputs[out].universe[i] as real;
      assert ys[i] == Aggregate(sys, inputs, sys.rules, out, x);
    }
    SumNonNegative(ys);
  }

  /**
    `calculate_heating`'s guard around the library: the power is the computed
    `heating_power` output when there is one, and 0.0 when the library raised
    or produced no such output.
   */
  function CalculateHeating(outcome: Outcome): (power: real)
    ensures outcome.Outputs? && "heating_power" in outcome.values ==> power == outcome.values["heating_power"]
    ensures power != 0.0 ==> outcome.Outputs? && "heating_power" in outcome.values
  {
    match outcome
    case Raised => 0.0
    case Outputs(values) => if "heating_power" in values then values["heating_power"] else 0.0
  }

  /** The heating power for one set of readings under the configured controller. */
  function Heating(tempRoom: real, tempOutside: real, humidity: real): (power: real)
    ensures 0.0 <= power <= 100.0
  {
    HeatingControlWellFormed();
    UniverseSizes();
    CalculateHeating(Compute(HeatingControl, HeatingInputs(tempRoom, tempOutside, humidity)))
  }

  /** The aggregated heating-power curve for one set of readings, sampled at 0..100. */
  function PowerCurve(tempRoom: real, tempOutside: real, humidity: real): (ys: seq<real>)
    ensures |ys| == |HeatingPower.universe|
    ensures forall i :: 0 <= i < |ys| ==> 0.0 <= ys[i] <= 1.0
  {
    HeatingControlWellFormed();
    assert HeatingControl.outputs["heating_power"] == HeatingPower;
    Curve(HeatingControl, HeatingInputs(tempRoom, tempOutside, humidity), "heating_power")
  }

  /**
    The converse of `HeatingZeroActivation`: once some rule fires, its
    conclusion's peak (0, 50 or 100) carries positive weight, the curve has
    non-zero area, nothing raises, and the power `calculate_heating` returns
    is the centroid of the aggregated heating-power curve.
   */
  lemma FiringRuleGivesCentroid(tempRoom: real, tempOutside: real, humidity: real)
    ensures var inputs := HeatingInputs(tempRoom, tempOutside, humidity);
      !NoRuleFires(inputs) ==>
        && Sum(PowerCurve(tempRoom, tempOutside, humidity)) > 0.0
        && Heating(tempRoom, tempOutside, humidity)
           == Centroid(HeatingPower.universe, PowerCurve(tempRoom, tempOutside, humidity))
  {
    var inputs := HeatingInputs(tempRoom, tempOutside, humidity);
    HeatingControlWellFormed();
    if !NoRuleFires(inputs) {
      var k :| 0 <= k < |HeatingRules| && RuleStrength(HeatingControl, inputs, HeatingRules[k]) != 0.0;
      var out := "heating_power";
      PowerIsOnlyOutput();
      PeakOfConclusion(k);
      var p := PeakSample(HeatingRules[k].consequent.name);
      PositiveAreaWhenFiring(HeatingControl, inputs, out, k, p);
      ComputeWithPositiveArea(HeatingControl, inputs, out);
    }
  }

  /**
    A rule that fires and concludes a label of `out` puts positive weight on
    any sample where that label is 1, so `out`'s curve has positive area.
   */
  lemma PositiveAreaWhenFiring(sys: System, inputs: Inputs, out: string, k: nat, p: nat)
    requires WellFormedSystem(sys) && Supplied(sys, inputs) && out in sys.outputs
    requires k < |sys.rules| && sys.rules[k].consequent.variable == out
    requires RuleStrength(sys, inputs, sys.rules[k]) != 0.0
    requires p < |sys.outputs[out].universe|
    requires Degree(sys.outputs[out].terms[sys.rules[k].consequent.name], sys.outputs[out].universe[p] as real) == 1.0
    ensures Sum(Curve(sys, inputs, out)) > 0.0
  {
    var ys := Curve(sys, inputs, out);
    var x := sys.outputs[out].universe[p] as real;
    assert Clipped(sys, inputs, sys.rules[k], out, x) > 0.0;
    assert ys[p] > 0.0;
    SumNonNegative(ys);
  }

  /** With a single output of positive area nothing raises, and the reported power is that curve's centroid. */
  lemma ComputeWithPositiveArea(sys: System, inputs: Inputs, out: string)
    requires WellFormedSystem(sys) && Supplied(sys, inputs) && sys.outputs.Keys == {out}
    requires Sum(Curve(sys, inputs, out)) > 0.0
    ensures Compute(sys, inputs).Outputs?
    ensures Compute(sys, inputs).values[out] == Centroid(sys.outputs[out].universe, Curve(sys, inputs, out))
  {
    assert !ZeroArea(sys, inputs) by {
      forall o | o in sys.outputs ensures Sum(Curve(sys, inputs, o)) != 0.0 {
        assert o == out;
      }
    }
    var outcome := Compute(sys, inputs);
    assert outcome.Outputs?;
    assert out in outcome.values;
  }

  /** The sample at which a heating-power label peaks. */
  function PeakSample(name: string): nat {
    if name == "niska" then 0 else if name == "średnia" then 50 else 100
  }

  /** The controller has the single output `heating_power`. */
  lemma PowerIsOnlyOutput()
    ensures HeatingControl.outputs.Keys == {"heating_power"}
    ensures HeatingControl.outputs["heating_power"] == HeatingPower
  {
  }

  /** Every rule's conclusion reaches full membership at its peak sample. */
  lemma PeakOfConclusion(k: nat)
    requires k < |HeatingRules|
    ensures HeatingRules[k].consequent.variable == "heating_power"
    ensures HeatingRules[k].consequent.name in HeatingPower.terms
    ensures PeakSample(HeatingRules[k].consequent.name) < |HeatingPower.universe|
    ensures HeatingPower.universe[PeakSample(HeatingRules[k].consequent.name)]
         == PeakSample(HeatingRules[k].consequent.name)
    ensures Degree(HeatingPower.terms[HeatingRules[k].consequent.name],
                   PeakSample(HeatingRules[k].consequent.name) as real) == 1.0
  {
    RulesWellFormed(k);
    UniverseSizes();
  }

  /** None of the nine rules fires for these readings. */
  predicate NoRuleFires(inputs: Inputs)
    requires Supplied(HeatingControl, inputs)
  {
    HeatingControlWellFormed();
    forall i :: 0 <= i < |HeatingRules| ==> RuleStrength(HeatingControl, inputs, HeatingRules[i]) == 0.0
  }

  /** Readings under which no rule fires at all yield the fallback power 0.0. */
  lemma HeatingZeroActivation(tempRoom: real, tempOutside: real, humidity: real)
    requires NoRuleFires(HeatingInputs(tempRoom, tempOutside, humidity))
    ensures Heating(tempRoom, tempOutside, humidity) == 0.0
  {
    HeatingControlWellFormed();
    assert |HeatingControl.outputs| > 0 by {
      assert "heating_power" in HeatingControl.outputs;
    }
    ZeroActivationRaises(HeatingControl, HeatingInputs(tempRoom, tempOutside, humidity));
  }

  /** The term degrees at room 30, outside 0, humidity 50: every room label and both humidity extremes are 0. */
  lemma WarmRoomTerms()
    ensures var sys, inputs := HeatingControl, HeatingInputs(30.0, 0.0, 50.0);
      && Strength(sys, inputs, Cond("temp_room", "zimno")) == 0.0
      && Strength(sys, inputs, Cond("temp_room", "komfort")) == 0.0
      && Strength(sys, inputs, Cond("temp_room", "cieplo")) == 0.0
      && Strength(sys, inputs, Cond("humidity", "nisko")) == 0.0
      && Strength(sys, inputs, Cond("humidity", "wysoko")) == 0.0
  {
    var sys, inputs := HeatingControl, HeatingInputs(30.0, 0.0, 50.0);
    assert inputs["temp_room"] == 30.0 && inputs["humidity"] == 50.0;
    assert sys.inputs["temp_room"] == TempRoom && sys.inputs["humidity"] == Humidity;
    UniverseSizes();
    assert ClipToUniverse(TempRoom.universe, 30.0) == 30.0;
    assert ClipToUniverse(Humidity.universe, 50.0) == 50.0;
  }

  /**
    The last point of the results chart's room-temperature sweep (room 30,
    outside 0, humidity 50) fires no rule: 30 is the right foot of `cieplo`,
    every other room label is 0 there, and humidity 50 is outside both
    `nisko` and `wysoko`. The call therefore ends in the fallback power 0.0.
   */
  lemma WarmRoomFallback()
    ensures NoRuleFires(HeatingInputs(30.0, 0.0, 50.0))
    ensures Heating(30.0, 0.0, 50.0) == 0.0
  {
    var inputs := HeatingInputs(30.0, 0.0, 50.0);
    forall i | 0 <= i < |HeatingRules|
      ensures WellFormedRule(HeatingControl, HeatingRules[i])
      ensures RuleStrength(HeatingControl, inputs, HeatingRules[i]) == 0.0
    {
      WarmRoomRule(i);
    }
    HeatingZeroActivation(30.0, 0.0, 50.0);
  }

  /** Each rule stays at 0 at room 30, outside 0, humidity 50: each reads a room label or a humidity extreme. */
  lemma WarmRoomRule(i: nat)
    requires i < |HeatingRules|
    ensures WellFormedRule(HeatingControl, HeatingRules[i])
    ensures RuleStrength(HeatingControl, HeatingInputs(30.0, 0.0, 50.0), HeatingRules[i]) == 0.0
  {
    RulesWellFormed(i);
    WarmRoomTerms();
    if i < 6 {
      assert HeatingRules[i].antecedent.left in
        {Cond("temp_room", "zimno"), Cond("temp_room", "komfort")};
    } else if i == 8 {
      assert HeatingRules[i].antecedent.left == Cond("humidity", "wysoko");
    }
  }
}

=== FILE: interpretation.dfy ===
/**
  How a computed heating power is reported: a three-band reading of the
  percentage, and the bar colour the results chart gives it. Both use the
  cut points 70 and 40.
 */
module Interpretation {

  datatype Band = MaximumHeating | MediumHeating | MinimumHeating

  /** The bar colours `#ff6b6b`, `#ffd93d` and `#6bcf7f`. */
  datatype Colour = Red | Yellow | Green

  /**
    The printed interpretation. The bands cover every power and do not
    overlap: at least 70 is maximum, from 40 up to but excluding 70 is
    medium, below 40 is minimum.
   */
  function Interpret(power: real): (b: Band)
    ensures b == MaximumHeating <==> power >= 70.0
    ensures b == MediumHeating <==> 40.0 <= power < 70.0
    ensures b == MinimumHeating <==> power < 40.0
  {
    if power >= 70.0 then MaximumHeating
    else if power >= 40.0 then MediumHeating
    else MinimumHeating
  }

  /** The colour of a scenario's bar in the results chart. */
  function BarColour(power: real): (c: Colour)
    ensures c == Red <==> power >= 70.0
    ensures c == Yellow <==> 40.0 <= power < 70.0
    ensures c == Green <==> power < 40.0
  {
    if power >= 70.0 then Red else if power >= 40.0 then Yellow else Green
  }

  function BandColour(b: Band): Colour {
    match b
    case MaximumHeating => Red
    case MediumHeating => Yellow
    case MinimumHeating => Green
  }

  /** The chart colours a bar exactly as the printed interpretation bands its value. */
  lemma ColourFollowsBand(power: real)
    ensures BarColour(power) == BandColour(Interpret(power))
  {
  }

  /** Raising the power never lowers its band. */
  lemma BandMonotone(p: real, q: real)
    requires p <= q
    ensures Interpret(p) == MaximumHeating ==> Interpret(q) == MaximumHeating
    ensures Interpret(q) == MinimumHeating ==> Interpret(p) == MinimumHeating
  {
  }
}

=== FILE: membership.dfy ===
/**
  Triangular membership functions (`trimf` with parameters `[a, b, c]`): the
  degree rises linearly from the left foot `a` to the peak `b` and falls
  linearly to the right foot `c`. A shoulder (`a == b` or `b == c`) has its
  full degree at the shared endpoint.
 */
module Membership {

  datatype Triangle = Triangle(a: real, b: real, c: real)

  /** The parameter order `trimf` insists on. */
  predicate WellFormed(t: Triangle) {
    t.a <= t.b <= t.c
  }

  /**
    The degree of membership of the crisp value `x`: 1 at the peak, the rising
    edge strictly between `a` and `b`, the falling edge strictly between `b`
    and `c`, and 0 everywhere else.
   */
  function Degree(t: Triangle, x: real): (d: real)
    ensures 0.0 <= d <= 1.0
    ensures x == t.b ==> d == 1.0
    ensures WellFormed(t) && (x < t.a || x > t.c) ==> d == 0.0
    ensures WellFormed(t) && d > 0.0 ==> x == t.b || t.a < x < t.c
  {
    if x == t.b then 1.0
    else if t.a < x < t.b then
      ProperFraction(x - t.a, t.b - t.a);
      (x - t.a) / (t.b - t.a)
    else if t.b < x < t.c then
      ProperFraction(t.c - x, t.c - t.b);
      (t.c - x) / (t.c - t.b)
    else 0.0
  }

  /** The degree never decreases on the rising edge `[a, b]`. */
  lemma RisingEdgeMonotone(t: Triangle, x: real, y: real)
    requires WellFormed(t) && t.a <= x <= y <= t.b
    ensures Degree(t, x) <= Degree(t, y)
  {
    if t.a < x && y < t.b {
      assert x - t.a <= y - t.a;
      DivMonotone(x - t.a, y - t.a, t.b - t.a);
    }
  }

  /** The degree never increases on the falling edge `[b, c]`. */
  lemma FallingEdgeMonotone(t: Triangle, x: real, y: real)
    requires WellFormed(t) && t.b <= x <= y <= t.c
    ensures Degree(t, x) >= Degree(t, y)
  {
    if t.b < x && y < t.c {
      DivMonotone(t.c - y, t.c - x, t.c - t.b);
    }
  }

  lemma ProperFraction(p: real, q: real)
    requires 0.0 < p < q
    ensures 0.0 < p / q < 1.0
  {
    var r := p / q;
    assert r * q == p;
    if r >= 1.0 {
      assert false;
    }
  }

  lemma DivMonotone(p: real, q: real, d: real)
    requires 0.0 <= p <= q && d > 0.0
    ensures p / d <= q / d
  {
    assert q / d - p / d == (q - p) / d;
  }

  /** Strictly inside the support of a proper triangle the degree is positive. */
  lemma PositiveInsideSupport(t: Triangle, x: real)
    requires WellFormed(t) && t.a < x < t.c
    ensures Degree(t, x) > 0.0
  {
  }
}

=== FILE: pytext.dfy ===
/**
  The text handling that a Wythoff move goes through: Python's `str()` of a
  non-negative int (used by the f-strings that build `"a,b"`), `str.split`
  on one separator character, and `int()` on a plain decimal digit string.
 */
module PyText {
  import opened Wrappers

  predicate IsDigit(c: char) {
    '0' <= c <= '9'
  }

  predicate AllDigits(s: string) {
    forall i :: 0 <= i < |s| ==> IsDigit(s[i])
  }

  function DigitValue(c: char): (d: nat)
    requires IsDigit(c)
    ensures d < 10
  {
    (c as int) - ('0' as int)
  }

  function DigitChar(d: nat): (c: char)
    requires d < 10
    ensures IsDigit(c) && DigitValue(c) == d
  {
    (('0' as int) + d) as char
  }

  /** Python's `str(n)` for `n >= 0`: decimal digits, no sign, no leading zero. */
  function FormatNat(n: nat): (s: string)
    ensures |s| >= 1 && AllDigits(s)
    ensures s[0] == '0' ==> n == 0 && |s| == 1
    decreases n
  {
    if n < 10 then [DigitChar(n)] else FormatNat(n / 10) + [DigitChar(n % 10)]
  }

  /** The number a string of decimal digits denotes, most significant digit first. */
  function DigitsValue(s: string): nat
    requires AllDigits(s)
  {
    if |s| == 0 then 0 else 10 * DigitsValue(s[..|s| - 1]) + DigitValue(s[|s| - 1])
  }

  /** Python's `int(s)` restricted to plain decimal digit strings; anything else raises (None). */
  function ParseNat(s: string): (r: Option<nat>)
    ensures r.Some? <==> |s| > 0 && AllDigits(s)
  {
    if |s| > 0 && AllDigits(s) then Some(DigitsValue(s)) else None
  }

  /** `int(str(n)) == n`: parsing undoes formatting. */
  lemma {:induction false} ParseFormatNat(n: nat)
    ensures ParseNat(FormatNat(n)) == Some(n)
  {
    var s := FormatNat(n);
    if n < 10 {
      assert s[..|s| - 1] == [];
    } else {
      ParseFormatNat(n / 10);
      assert s[..|s| - 1] == FormatNat(n / 10);
      assert DigitsValue(s) == 10 * (n / 10) + n % 10;
    }
  }

  /** Rendering is injective: two naturals never print the same. */
  lemma FormatNatInjective(m: nat, n: nat)
    ensures FormatNat(m) == FormatNat(n) <==> m == n
  {
    if FormatNat(m) == FormatNat(n) {
      ParseFormatNat(m);
      ParseFormatNat(n);
    }
  }

  /** Glues the pieces back together with the separator between consecutive pieces. */
  function Join(parts: seq<string>, sep: char): string
    requires |parts| >= 1
  {
    if |parts| == 1 then parts[0] else parts[0] + [sep] + Join(parts[1..], sep)
  }

  /**
    Python's `s.split(sep)` for a one-character separator: every occurrence of
    `sep` cuts, empty pieces are kept, so there is one piece more than there
    are separators.
   */
  function Split(s: string, sep: char): (parts: seq<string>)
    ensures |parts| >= 1
    ensures forall k :: 0 <= k < |parts| ==> sep !in parts[k]
    ensures Join(parts, sep) == s
  {
    if |s| == 0 then [""]
    else if s[0] == sep then
      var rest := Split(s[1..], sep);
      assert s == [sep] + s[1..];
      [""] + rest
    else
      var rest := Split(s[1..], sep);
      var parts := [[s[0]] + rest[0]] + rest[1..];
      assert parts[1..] == rest[1..];
      assert s == [s[0]] + s[1..];
      parts
  }

  /** A separator-free string is a single piece. */
  lemma {:induction false} SplitNoSeparator(s: string, sep: char)
    requires sep !in s
    ensures Split(s, sep) == [s]
  {
    if |s| > 0 {
      assert sep !in s[1..] by {
        forall i | 0 <= i < |s[1..]| ensures s[1..][i] != sep {
          assert s[1..][i] == s[i + 1];
        }
      }
      SplitNoSeparator(s[1..], sep);
      assert [s[0]] + s[1..] == s;
    }
  }

  /** Splitting `x + sep + y` with separator-free halves yields exactly `[x, y]`. */
  lemma {:induction false} SplitPair(x: string, y: string, sep: char)
    requires sep !in x && sep !in y
    ensures Split(x + [sep] + y, sep) == [x, y]
  {
    var s := x + [sep] + y;
    if |x| == 0 {
      assert s[1..] == y;
      SplitNoSeparator(y, sep);
    } else {
      assert x[0] != sep;
      assert s[1..] == x[1..] + [sep] + y;
      assert sep !in x[1..] by {
        forall i | 0 <= i < |x[1..]| ensures x[1..][i] != sep {
          assert x[1..][i] == x[i + 1];
        }
      }
      SplitPair(x[1..], y, sep);
      assert [x[0]] + x[1..] == x;
    }
  }
}

=== FILE: selection.dfy ===
/**
  The human's turn in the event loop: clicking a matchstick toggles its mark,
  and clicking "Zabierz" turns the numbers of marked matchsticks on each heap
  into a move, which is played only if `possible_moves` lists it. Hit-testing
  of the click position is left to the caller: a click arrives here as the
  index of the matchstick that was hit.
 */
module Selection {
  import opened Wrappers
  import opened Wythoff

  /** Marks stay on matchsticks that exist: every index is below its heap's size. */
  predicate MarksInRange(g: Game) {
    (forall i :: i in g.selected0 ==> i < g.heap0)
    && (forall i :: i in g.selected1 ==> i < g.heap1)
  }

  /** Marking an unmarked matchstick or unmarking a marked one. */
  function Toggle(marks: set<nat>, i: nat): (r: set<nat>)
    ensures i in r <==> i !in marks
    ensures forall j :: j != i ==> (j in r <==> j in marks)
  {
    if i in marks then marks - {i} else marks + {i}
  }

  /**
    A click on matchstick `i` of heap `heap` (0 or 1). Only indices in
    `range(heaps[heap])` can be hit; any other click leaves the marks alone.
   */
  function ClickMatch(g: Game, heap: nat, i: nat): (g': Game)
    requires heap < 2
    ensures g'.heap0 == g.heap0 && g'.heap1 == g.heap1 && g'.currentPlayer == g.currentPlayer
    ensures MarksInRange(g) ==> MarksInRange(g')
    ensures heap == 0 && i < g.heap0 ==> g' == g.(selected0 := Toggle(g.selected0, i))
    ensures heap == 1 && i < g.heap1 ==> g' == g.(selected1 := Toggle(g.selected1, i))
    ensures !(heap == 0 && i < g.heap0) && !(heap == 1 && i < g.heap1) ==> g' == g
  {
    if heap == 0 && i < g.heap0 then g.(selected0 := Toggle(g.selected0, i))
    else if heap == 1 && i < g.heap1 then g.(selected1 := Toggle(g.selected1, i))
    else g
  }

  /** `range(n)` as a set: the indices a heap of size `n` offers for marking. */
  function Indices(n: nat): (r: set<nat>)
    ensures |r| == n
    ensures forall i: nat :: i in r <==> i < n
  {
    if n == 0 then {} else
      var r := Indices(n - 1);
      assert n - 1 !in r;
      r + {n - 1}
  }

  /** Under the marking invariant a heap never has more marks than matchsticks. */
  lemma MarkCountBounded(g: Game)
    requires Valid(g) && MarksInRange(g)
    ensures |g.selected0| <= g.heap0 && |g.selected1| <= g.heap1
  {
    SubsetCard(g.selected0, Indices(g.heap0));
    SubsetCard(g.selected1, Indices(g.heap1));
  }

  /** A subset is no larger than the set containing it. */
  lemma {:induction false} SubsetCard(a: set<nat>, b: set<nat>)
    requires a <= b
    ensures |a| <= |b|
    decreases b
  {
    if a != {} {
      var x :| x in a;
      SubsetCard(a - {x}, b - {x});
    }
  }

  /** The move the mark counts describe, or None when they describe no move. */
  function BuildMove(g: Game): (r: Option<string>)
    ensures r.Some? <==> Legal(g, Move(|g.selected0|, |g.selected1|))
    ensures r.Some? ==> ParseMove(r.value) == Some(Move(|g.selected0|, |g.selected1|))
  {
    ParseFormatMoveAll();
    var sel1, sel2 := |g.selected0|, |g.selected1|;
    if sel1 > 0 && sel2 == 0 && sel1 <= g.heap0 then Some(FormatMove(Move(sel1, 0)))
    else if sel2 > 0 && sel1 == 0 && sel2 <= g.heap1 then Some(FormatMove(Move(0, sel2)))
    else if sel1 == sel2 && sel2 > 0 && sel1 <= Min(g.heap0, g.heap1) then Some(FormatMove(Move(sel1, sel1)))
    else None
  }

  /** The click on "Zabierz": play the described move if it is listed, else change nothing. */
  function HumanTake(g: Game): (r: Game)
    ensures r.players == g.players
    ensures r != g ==> Legal(g, Move(|g.selected0|, |g.selected1|))
    ensures r != g ==> r.currentPlayer + g.currentPlayer == 3 && r.selected0 == {} && r.selected1 == {}
  {
    match BuildMove(g)
    case Some(s) =>
      if s in PossibleMoves(g) then
        PossibleMovesParse(g, s);
        MakeMove(g, s).value
      else g
    case None => g
  }

  /** Whatever the counts describe is always a listed move, so the membership test never rejects. */
  lemma BuildMoveListed(g: Game)
    requires Valid(g)
    ensures BuildMove(g).Some? ==> BuildMove(g).value in PossibleMoves(g)
  {
    PossibleMovesExact(g);
  }

  /**
    The take button plays exactly the move whose pair is the mark counts when
    Wythoff's rule allows it, and otherwise (unequal non-zero counts, too
    many marks, no marks) leaves the game as it was.
   */
  lemma HumanTakeExact(g: Game)
    requires Valid(g)
    ensures var m := Move(|g.selected0|, |g.selected1|);
      && MakeMove(g, FormatMove(m)).Some?
      && (Legal(g, m) ==> HumanTake(g) == MakeMove(g, FormatMove(m)).value)
      && (!Legal(g, m) ==> HumanTake(g) == g)
  {
    var m := Move(|g.selected0|, |g.selected1|);
    PossibleMovesExact(g);
    ParseFormatMove(m);
    if Legal(g, m) {
      assert BuildMove(g) == Some(FormatMove(m));
    } else {
      assert BuildMove(g) == None;
    }
  }

  /** Unequal non-zero counts never make a move. */
  lemma UnequalCountsRejected(g: Game)
    requires Valid(g)
    requires |g.selected0| > 0 && |g.selected1| > 0 && |g.selected0| != |g.selected1|
    ensures HumanTake(g) == g
  {
    HumanTakeExact(g);
  }
}

=== FILE: wrappers.dfy ===
/** Failure-carrying values shared by the game and the controller models. */
module Wrappers {

  /** A value that may be absent: the model of a Python `None` or of a raised exception. */
  datatype Option<+T> = None | Some(value: T)

}

=== FILE: wythoff.dfy ===
/**
  Wythoff's game as the `WythoffGame` class plays it: two heaps, a move takes
  a positive number of objects from one heap or the same positive number from
  both, moves travel as `"a,b"` strings, and the player who empties both heaps
  wins. Players are numbered 1 and 2 (player 1 is the human in the event loop).
 */
module Wythoff {
  import opened Wrappers
  import opened PyText

  /** The entries of the `players` list; the search behind the computer player is external. */
  datatype Player = Human | Computer

  /** A move as the pair `a,b`: take `fromFirst` from heap 1 and `fromSecond` from heap 2. */
  datatype Move = Move(fromFirst: nat, fromSecond: nat)

  /**
    The game object. Heaps are plain integers because `make_move` subtracts
    whatever the string says without checking it; `selected0`/`selected1` are
    the indices of the matchsticks the human has marked on each heap.
   */
  datatype Game = Game(
    players: seq<Player>,
    heap0: int,
    heap1: int,
    currentPlayer: int,
    selected0: set<nat>,
    selected1: set<nat>,
    lastMove: Option<string>)

  /** A position that play can reach from a sensible start: non-negative heaps, player 1 or 2. */
  predicate Valid(g: Game) {
    g.heap0 >= 0 && g.heap1 >= 0 && (g.currentPlayer == 1 || g.currentPlayer == 2)
  }

  function Min(x: int, y: int): int {
    if x <= y then x else y
  }

  /** The number of values `range(1, h + 1)` yields. */
  function Count(h: int): nat {
    if h <= 0 then 0 else h
  }

  /** Wythoff's rule, stated independently of how the move list is built. */
  predicate Legal(g: Game, m: Move) {
    || (1 <= m.fromFirst <= g.heap0 && m.fromSecond == 0)
    || (m.fromFirst == 0 && 1 <= m.fromSecond <= g.heap1)
    || (m.fromFirst == m.fromSecond && 1 <= m.fromFirst <= Min(g.heap0, g.heap1))
  }

  /** `__init__`: heaps `[5, 7]` unless given, player 1 to move, nothing selected, no last move. */
  function NewGame(players: seq<Player>, heaps: Option<(int, int)>): (g: Game)
    ensures heaps.None? ==> g.heap0 == 5 && g.heap1 == 7
    ensures heaps.Some? ==> (g.heap0, g.heap1) == heaps.value
    ensures g.currentPlayer == 1 && g.selected0 == {} && g.selected1 == {} && g.lastMove == None
    ensures g.players == players
  {
    var (h0, h1) := if heaps.Some? then heaps.value else (5, 7);
    Game(players, h0, h1, 1, {}, {}, None)
  }

  /** The text form `f"{a},{b}"` of a move. */
  function FormatMove(m: Move): (s: string)
    ensures Split(s, ',') == [FormatNat(m.fromFirst), FormatNat(m.fromSecond)]
  {
    var x, y := FormatNat(m.fromFirst), FormatNat(m.fromSecond);
    assert ',' !in x && ',' !in y by {
      assert AllDigits(x) && AllDigits(y);
    }
    SplitPair(x, y, ',');
    assert x + "," + y == x + [','] + y;
    x + "," + y
  }

  /** `a, b = map(int, move.split(","))`: None where Python raises. */
  function ParseMove(s: string): (r: Option<Move>)
    ensures r.Some? <==> && |Split(s, ',')| == 2
                         && ParseNat(Split(s, ',')[0]).Some?
                         && ParseNat(Split(s, ',')[1]).Some?
    ensures r.Some? ==> r.value == Move(ParseNat(Split(s, ',')[0]).value, ParseNat(Split(s, ',')[1]).value)
  {
    var parts := Split(s, ',');
    if |parts| != 2 then None
    else
      match (ParseNat(parts[0]), ParseNat(parts[1]))
      case (Some(a), Some(b)) => Some(Move(a, b))
      case _ => None
  }

  /** Parsing recovers exactly the pair that was formatted. */
  lemma ParseFormatMove(m: Move)
    ensures ParseMove(FormatMove(m)) == Some(m)
  {
    var x, y := FormatNat(m.fromFirst), FormatNat(m.fromSecond);
    assert ',' !in x && ',' !in y by {
      assert AllDigits(x) && AllDigits(y);
    }
    assert FormatMove(m) == x + [','] + y;
    SplitPair(x, y, ',');
    ParseFormatNat(m.fromFirst);
    ParseFormatNat(m.fromSecond);
  }

  /** The round trip, for every move at once. */
  lemma ParseFormatMoveAll()
    ensures forall m :: ParseMove(FormatMove(m)) == Some(m)
  {
    forall m ensures ParseMove(FormatMove(m)) == Some(m) {
      ParseFormatMove(m);
    }
  }

  /** Different moves never share a text form. */
  lemma FormatMoveInjective(m: Move, n: Move)
    ensures FormatMove(m) == FormatMove(n) <==> m == n
  {
    if FormatMove(m) == FormatMove(n) {
      ParseFormatMove(m);
      ParseFormatMove(n);
    }
  }

  /** The pairs `possible_moves` enumerates, in its order: heap 1 only, heap 2 only, both. */
  function MoveList(g: Game): (r: seq<Move>)
    ensures |r| == Count(g.heap0) + Count(g.heap1) + Count(Min(g.heap0, g.heap1))
    ensures forall i :: 0 <= i < |r| ==> Legal(g, r[i])
  {
    seq(Count(g.heap0), i requires 0 <= i => Move(i + 1, 0))
    + seq(Count(g.heap1), i requires 0 <= i => Move(0, i + 1))
    + seq(Count(Min(g.heap0, g.heap1)), i requires 0 <= i => Move(i + 1, i + 1))
  }

  /** `possible_moves`: the move list rendered as `"a,b"` strings. */
  function PossibleMoves(g: Game): (r: seq<string>)
    ensures |r| == |MoveList(g)|
    ensures forall i :: 0 <= i < |r| ==> ParseMove(r[i]) == Some(MoveList(g)[i])
  {
    var ms := MoveList(g);
    ParseFormatMoveAll();
    seq(|ms|, i requires 0 <= i < |ms| => FormatMove(ms[i]))
  }

  lemma MoveListExact(g: Game)
    ensures forall m :: m in MoveList(g) <==> Legal(g, m)
    ensures forall i, j :: 0 <= i < j < |MoveList(g)| ==> MoveList(g)[i] != MoveList(g)[j]
  {
    var A := seq(Count(g.heap0), i requires 0 <= i => Move(i + 1, 0));
    var B := seq(Count(g.heap1), i requires 0 <= i => Move(0, i + 1));
    var C := seq(Count(Min(g.heap0, g.heap1)), i requires 0 <= i => Move(i + 1, i + 1));
    assert MoveList(g) == A + B + C;
    forall m | Legal(g, m) ensures m in MoveList(g) {
      if 1 <= m.fromFirst <= g.heap0 && m.fromSecond == 0 {
        assert A[m.fromFirst - 1] == m;
      } else if m.fromFirst == 0 && 1 <= m.fromSecond <= g.heap1 {
        assert B[m.fromSecond - 1] == m;
      } else {
        assert C[m.fromFirst - 1] == m;
      }
    }
  }

  /**
    `possible_moves` lists exactly the legal moves, each once, and there are
    `h0 + h1 + min(h0, h1)` of them.
   */
  lemma PossibleMovesExact(g: Game)
    requires Valid(g)
    ensures |PossibleMoves(g)| == g.heap0 + g.heap1 + Min(g.heap0, g.heap1)
    ensures forall m :: FormatMove(m) in PossibleMoves(g) <==> Legal(g, m)
    ensures forall i, j :: 0 <= i < j < |PossibleMoves(g)| ==> PossibleMoves(g)[i] != PossibleMoves(g)[j]
  {
    MoveListExact(g);
    var ms, ps := MoveList(g), PossibleMoves(g);
    forall m | FormatMove(m) in ps ensures Legal(g, m) {
      var i :| 0 <= i < |ps| && ps[i] == FormatMove(m);
      FormatMoveInjective(ms[i], m);
      assert ms[i] in ms;
    }
    forall m | Legal(g, m) ensures FormatMove(m) in ps {
      var i :| 0 <= i < |ms| && ms[i] == m;
      assert ps[i] == FormatMove(m);
    }
    forall i, j | 0 <= i < j < |ps| ensures ps[i] != ps[j] {
      FormatMoveInjective(ms[i], ms[j]);
    }
  }

  /** Every listed string parses back to a legal move it is the rendering of. */
  lemma PossibleMovesParse(g: Game, s: string)
    requires s in PossibleMoves(g)
    ensures ParseMove(s).Some?
    ensures Legal(g, ParseMove(s).value) && FormatMove(ParseMove(s).value) == s
  {
    MoveListExact(g);
    var ms := MoveList(g);
    var i :| 0 <= i < |ms| && PossibleMoves(g)[i] == s;
    ParseFormatMove(ms[i]);
    assert ms[i] in ms;
  }

  /**
    `make_move`: subtract the parsed pair from the heaps, hand the turn to the
    other player, clear the selections and remember the move. A string that
    does not parse raises (None); the heaps are never checked.
   */
  function MakeMove(g: Game, move: string): (r: Option<Game>)
    ensures r.Some? <==> ParseMove(move).Some?
    ensures r.Some? ==> r.value.players == g.players
    ensures r.Some? ==> r.value.heap0 == g.heap0 - ParseMove(move).value.fromFirst
    ensures r.Some? ==> r.value.heap1 == g.heap1 - ParseMove(move).value.fromSecond
    ensures r.Some? ==> r.value.currentPlayer + g.currentPlayer == 3
    ensures r.Some? ==> r.value.selected0 == {} && r.value.selected1 == {} && r.value.lastMove == Some(move)
  {
    match ParseMove(move)
    case None => None
    case Some(m) =>
      Some(g.(heap0 := g.heap0 - m.fromFirst,
              heap1 := g.heap1 - m.fromSecond,
              currentPlayer := 3 - g.currentPlayer,
              selected0 := {},
              selected1 := {},
              lastMove := Some(move)))
  }

  /**
    Playing any listed move succeeds, keeps both heaps non-negative, strictly
    shrinks the total, swaps player 1 and 2, clears the selections, records
    the move and touches nothing else.
   */
  lemma PossibleMoveApplies(g: Game, s: string)
    requires Valid(g) && s in PossibleMoves(g)
    ensures MakeMove(g, s).Some?
    ensures var g' := MakeMove(g, s).value;
      && Valid(g')
      && g'.heap0 + g'.heap1 < g.heap0 + g.heap1
      && g'.currentPlayer == (if g.currentPlayer == 1 then 2 else 1)
      && g'.selected0 == {} && g'.selected1 == {}
      && g'.lastMove == Some(s)
      && g'.players == g.players
  {
    PossibleMovesParse(g, s);
  }

  /** `win`: both heaps are empty (`heaps == [0, 0]`). */
  predicate Win(g: Game)
    ensures Valid(g) ==> (Win(g) <==> g.heap0 + g.heap1 == 0)
  {
    g.heap0 == 0 && g.heap1 == 0
  }

  /** `is_over` is `win`. */
  predicate IsOver(g: Game)
    ensures Valid(g) ==> (IsOver(g) <==> |MoveList(g)| == 0)
  {
    Win(g)
  }

  /** `scoring`: 100 for a won position, 0 otherwise. */
  function Scoring(g: Game): (score: int)
    ensures score == 100 <==> Win(g)
    ensures score == 0 <==> !Win(g)
  {
    if Win(g) then 100 else 0
  }

  /** On reachable positions there is a move exactly when the game is not over. */
  lemma NoMovesIffOver(g: Game)
    requires Valid(g)
    ensures |PossibleMoves(g)| == 0 <==> IsOver(g)
  {
    PossibleMovesExact(g);
  }

  /** The default opening position is live: valid, not over, with 5 + 7 + 5 = 17 legal moves. */
  lemma DefaultGameStart(players: seq<Player>)
    ensures var g := NewGame(players, None);
      Valid(g) && !IsOver(g) && |PossibleMoves(g)| == 17
  {
    PossibleMovesExact(NewGame(players, None));
  }

  /** The winner the end screen announces: `3 - current_player`. */
  function Winner(g: Game): (w: int)
    ensures Valid(g) ==> (w == 1 || w == 2) && w != g.currentPlayer
  {
    3 - g.currentPlayer
  }

  /** When a move ends the game, the announced winner is the player who made it. */
  lemma LastMoverWins(g: Game, s: string)
    requires Valid(g) && s in PossibleMoves(g)
    ensures MakeMove(g, s).Some?
    ensures IsOver(MakeMove(g, s).value) ==> Winner(MakeMove(g, s).value) == g.currentPlayer
  {
    PossibleMoveApplies(g, s);
  }

  /**
    How a negamax search reads a score: `scoring()` values the position for
    the player to move, and the opponent sees the negation.
   */
  function ValueFor(score: int, g: Game, p: int): int {
    if p == g.currentPlayer then score else -score
  }

  /**
    As written, a finished position is worth +100 to the player to move.
    That player is not the one the end screen declares the winner, so the
    winner is scored -100: the search steers away from taking the last object.
   */
  lemma ScoringCreditsLoser(g: Game)
    requires Valid(g) && IsOver(g)
    ensures Winner(g) != g.currentPlayer
    ensures ValueFor(Scoring(g), g, g.currentPlayer) == 100
    ensures ValueFor(Scoring(g), g, Winner(g)) == -100
  {
  }

  /**
    The same discrepancy on a concrete position: with heaps 1 and 1 and the
    computer (player 2) to move, "1,1" wins the game by the end screen's rule,
    yet the resulting position scores -100 for the computer.
   */
  lemma WinningMoveScoredAsLoss()
    ensures var g := Game([Human, Computer], 1, 1, 2, {}, {}, None);
      && "1,1" in PossibleMoves(g)
      && MakeMove(g, "1,1").Some?
      && IsOver(MakeMove(g, "1,1").value)
      && Winner(MakeMove(g, "1,1").value) == 2
      && ValueFor(Scoring(MakeMove(g, "1,1").value), MakeMove(g, "1,1").value, 2) == -100
  {
    var g := Game([Human, Computer], 1, 1, 2, {}, {}, None);
    var m := Move(1, 1);
    assert FormatMove(m) == "1,1";
    PossibleMovesExact(g);
    assert Legal(g, m);
    PossibleMoveApplies(g, "1,1");
  }

  /**
    The scoring Wythoff's normal-play rule calls for: a finished position has
    just been lost by the player to move, so it is worth -100 to that player.
   */
  function WinnerScoring(g: Game): (score: int)
    ensures score == -100 <==> Win(g)
    ensures score == 0 <==> !Win(g)
  {
    if Win(g) then -100 else 0
  }

  /** With the corrected scoring, the announced winner values a finished game at +100. */
  lemma WinnerScoringCreditsWinner(g: Game)
    requires Valid(g) && IsOver(g)
    ensures ValueFor(WinnerScoring(g), g, Winner(g)) == 100
    ensures ValueFor(WinnerScoring(g), g, g.currentPlayer) == -100
  {
  }

  /**
    Plays listed moves to the end, letting `choose` (the search, or the human)
    pick among them. That it is a total function is the termination argument:
    the heap total strictly decreases, and it stops only in a finished game.
   */
  function PlayOut(g: Game, choose: Game -> nat): (final: Game)
    requires Valid(g)
    ensures Valid(final) && IsOver(final)
    ensures final.players == g.players
    decreases g.heap0 + g.heap1
  {
    if IsOver(g) then g
    else
      var moves := PossibleMoves(g);
      NoMovesIffOver(g);
      var s := moves[choose(g) % |moves|];
      PossibleMoveApplies(g, s);
      PlayOut(MakeMove(g, s).value, choose)
  }

  /** Applies the strings in turn, failing as soon as one is not a listed move. */
  function Replay(g: Game, moves: seq<string>): Option<Game>
    decreases |moves|
  {
    if |moves| == 0 then Some(g)
    else if moves[0] in PossibleMoves(g) then
      match MakeMove(g, moves[0])
      case None => None
      case Some(g') => Replay(g', moves[1..])
      else None
  }

  /** No game lasts longer than the objects on the table: at most `h0 + h1` legal moves. */
  lemma {:induction false} ReplayLength(g: Game, moves: seq<string>)
    requires Valid(g) && Replay(g, moves).Some?
    ensures |moves| <= g.heap0 + g.heap1
    ensures Valid(Replay(g, moves).value)
    decreases |moves|
  {
    if |moves| > 0 {
      PossibleMoveApplies(g, moves[0]);
      ReplayLength(MakeMove(g, moves[0]).value, moves[1..]);
    }
  }
}
